=== FILE: README.md ===
# Private-beta signup action, modelled in Dafny

The repository's one piece of executable logic is the `privateBetaSignup` form
action in `src/actions/index.ts`. It screens a signup form for automation, maps
the form into a contact request for an email-marketing service, sends the
request, and turns the service's reply into a result the signup page can
re-render. This project models that action as pure functions over immutable
values, and proves the properties its code promises.

Modules, one per concern of the action:

- `Wrappers`: `Option`, standing for JavaScript's `null`/`undefined` and `??`.
- `Text`: `trim`, ASCII `toLowerCase`, `split` on one character and its inverse `Join`.
- `Types`: the submitted form (`map<string, string>`), `JsNumber` (what `Number(...)` yields), and `ActionResult`.
- `Gate`: the honeypot check and the time trap.
- `Payload`: tags, the `mobileInterest` answer, and the contact request.
- `Pointer`: `pointerToField`.
- `FieldErrors`: the 422 branch's group-by of validation errors into field errors.
- `Response`: the `switch` on the reply's status and the `catch`.
- `Signup`: the handler, composed from the above.

The action's collaborators are parameters. `now` stands for `Date.now()`.
`parse: string -> JsNumber` stands for `Number(...)`. `upstream: Contact -> Outcome`
stands for `fetch` together with `response.json()`. "No upstream call" is stated
as "the result does not depend on `upstream`".

Three behaviours of the code worth knowing:

- The `mobile-interested` tag is added when `mobileInterest` is submitted and non-empty. The `"Yes"`/`"No"` field is `"Yes"` only for the value `"on"`. `Payload.OtherValuesDisagree` shows the two can differ.
- A `renderedAt` that parses to an infinity passes the time trap once the clock reads 2000 or more.
- A reply whose JSON body is `null` gives 500 on every status except 201 and 409. Reading `body.errors` or `body.detail` on `null` throws, and the `catch` answers.

`Response.Resolve` and `Signup.Handle` use the corrected field-error accumulation described under "## Findings". `Response.ResolveAsWritten` and `Signup.HandleAsWritten` model the code as written, and two lemmas prove where the two versions differ.

## Model

| member | source | states |
|---|---|---|
| Text.Trim | src/actions/index.ts:16 | the trimmed string is the slice of the input between its leading and trailing ECMAScript whitespace; it is non-empty exactly when the input holds a non-whitespace character |
| Text.ToLower | src/actions/index.ts:156 | lower-casing keeps the length, maps each ASCII capital to its small letter, leaves every other character unchanged, and leaves no ASCII capital behind |
| Text.ToLowerIdempotent | src/actions/index.ts:156 | lower-casing an already lower-cased string changes nothing |
| Text.Split | src/actions/index.ts:147 | `split('/')` yields at least one piece, no piece holds the separator, and joining the pieces with the separator gives back the input |
| Text.SplitJoin | src/actions/index.ts:147 | splitting a join of separator-free pieces gives back those pieces (the other direction of the round trip) |
| Pointer.FindIgnoringCase | src/actions/index.ts:148-156 | `known.find` returns a name from the list equal to the segment up to case, and returns nothing exactly when no name matches |
| Pointer.KnownFieldsDistinctIgnoringCase | src/actions/index.ts:148-155 | no two known field names are equal up to case, so a case-insensitive match picks one canonical name |
| Pointer.PointerToField | src/actions/index.ts:143-160 | a field is returned exactly for `/email_address` and for pointers starting with `/fields/`; missing, empty and all other pointers give none; `/email_address` gives `EmailAddress` |
| Pointer.FieldsPointerResolves | src/actions/index.ts:146-158 | for every `/fields/<segment>` pointer with any tail, the result is the canonical known name when the segment matches one up to case, and the segment verbatim otherwise |
| Pointer.ThirdSegmentOfFieldsPointer | src/actions/index.ts:147 | the third `/`-separated piece of `/fields/<segment><tail>` is the segment, when the segment has no slash and the tail is empty or starts with one |
| Pointer.FieldsPointerShape | src/actions/index.ts:146-147 | every pointer starting with `/fields/` is `/fields/` plus a slash-free segment plus a tail that is empty or starts with `/`, so the previous row covers all of them |
| Pointer.NonFieldPointerExamples | src/actions/index.ts:144-145 | a null or empty pointer and `/tags/0` give no field; `/email_address` gives `EmailAddress` |
| Pointer.KnownFieldPointerExamples | src/actions/index.ts:146-157 | `/fields/childrenCount` gives `childrenCount`; `/fields/FirstName/x` gives `FirstName` |
| Pointer.CaseInsensitivePointerExample | src/actions/index.ts:156-157 | `/fields/firstname` gives the canonical `FirstName` |
| Pointer.UnknownFieldPointerExamples | src/actions/index.ts:147-157 | `/fields/unknownField` gives `unknownField` unchanged; a bare `/fields/` gives the empty name, not null |
| Gate.RenderedAt | src/actions/index.ts:27-29 | a submitted `renderedAt` reads as its parsed number; a missing one reads as a falsy finite value (zero) |
| Gate.Check | src/actions/index.ts:14-39 | a `company` value with a visible character is rejected with 400 "Invalid submission." before the time trap is consulted; otherwise a NaN or zero timestamp, a finite one under 2000 ms old, or an infinite one while the clock is under 2000 is rejected with 400 "Please try again."; everything else passes; rejections echo the form |
| Gate.MissingTimestampRejected | src/actions/index.ts:27-31 | a form without `renderedAt` never passes the time trap |
| Gate.InfiniteTimestampPasses | src/actions/index.ts:28-31 | an infinite timestamp passes exactly when the clock reads at least 2000 |
| Payload.Tags | src/actions/index.ts:41-43 | the tags start with `private-beta`; `mobile-interested` is present, as the second and last tag, exactly when `mobileInterest` is submitted and non-empty |
| Payload.MobileInterestAnswer | src/actions/index.ts:53 | the answer is `Yes` exactly when `mobileInterest` is `"on"`, and `No` otherwise |
| Payload.ChildrenCount | src/actions/index.ts:51 | the count is the parsed `childrenCount` when submitted, and NaN when missing |
| Payload.BuildContact | src/actions/index.ts:45-57 | the request has status `subscribed`, exactly the tags of `Payload.Tags`, the Yes/No answer, the children count of `Payload.ChildrenCount`, and the email address and string fields copied from the form |
| Payload.CheckboxSignalsAgree | src/actions/index.ts:41-53 | for an absent or `"on"` checkbox, the tag is present exactly when the answer is `Yes` |
| Payload.OtherValuesDisagree | src/actions/index.ts:41-53 | any other non-empty `mobileInterest` gets the tag but answers `No` |
| FieldErrors.KeyOf | src/actions/index.ts:84-93 | an error whose pointer resolves to a field is filed under that field; an error whose pointer is missing or resolves to no field is filed under `_global` |
| FieldErrors.MessageOf | src/actions/index.ts:91-92 | an error's message is its own detail, else the body's detail, else "Unprocessable content." |
| FieldErrors.AddFieldError | src/actions/index.ts:80-87 | filing a message adds its key to the map, lengthens that key's list by one, and leaves every other key's list unchanged |
| FieldErrors.AddFieldErrorAppends | src/actions/index.ts:84-86 | the filed message becomes the key's last message, after the messages the key already held, or its only one when the key is new |
| FieldErrors.WithoutErrorList | src/actions/index.ts:95-97 | without an `errors` array the field errors are one `_global` message: the body's `detail`, or "Unprocessable content." |
| FieldErrors.Collect | src/actions/index.ts:89-94 | the corrected loop's keys are exactly the keys the errors are filed under, and no key holds an empty list |
| FieldErrors.CollectGroupsByField | src/actions/index.ts:84-94 | the keys are exactly the resolved fields of the errors, with `_global` for unresolved pointers; each key holds its errors' messages in input order and is never empty |
| FieldErrors.MessagesUnderNonEmpty | src/actions/index.ts:84-86 | a key receives messages exactly when some error is filed under it |
| FieldErrors.CollectKeepsEveryMessage | src/actions/index.ts:90-94 | each error contributes exactly one message: the messages across all keys number as many as the errors |
| FieldErrors.CollectAsWritten | src/actions/index.ts:78-94 | the loop as written completes only when no error is filed under an `Object.prototype` property name, and throws only when one is |
| FieldErrors.CollectAsWrittenThrowsOnInheritedKeys | src/actions/index.ts:78-94 | the loop as written throws exactly when some error is filed under an `Object.prototype` property name, and otherwise yields the corrected group-by |
| FieldErrors.ConstructorPointerCounterexample | src/actions/index.ts:85-86 | one error on `/fields/constructor` makes the loop as written throw; the corrected group-by files it under `constructor` |
| Response.Resolve | src/actions/index.ts:73-135 | 201 and 409 give success, and nothing else does; an exception, or a `null` body on any other status, gives 500 with the generic message; 422 gives status 422, the body's `detail` as message, and the field errors; any other status gives that status and the body's `detail`; every failure echoes the form; the field errors are those of the corrected accumulation |
| Response.UnprocessableFieldErrors | src/actions/index.ts:77-112 | a 422 with an `errors` array files every error once, under its field, in order, with as many messages as errors; without the array there is the single `_global` message |
| Response.ResolveAsWritten | src/actions/index.ts:73-135 | the mapping as written echoes the form on every failure, and where it departs from `Response.Resolve` it answers the 500 of the `catch`, and only for a 422 |
| Response.ResolveAsWrittenDiffers | src/actions/index.ts:78-135 | the mapping as written differs from the corrected one exactly on 422 replies whose errors are filed under an inherited property name |
| Response.ConstructorFieldErrorCounterexample | src/actions/index.ts:85-135 | a 422 with an error on `/fields/constructor` answers 500 as written, but 422 with `{constructor: ["is invalid"]}` once corrected |
| Signup.Screen | src/actions/index.ts:14-57 | a submission is forwarded exactly when it passes both checks, and then as the contact built from the form; rejections are 400 failures echoing the form |
| Signup.Handle | src/actions/index.ts:9-136 | with the corrected field-error accumulation: every failure echoes the submitted form; success happens only for a forwarded submission whose reply is 201 or 409 |
| Signup.HandleAsWritten | src/actions/index.ts:9-136 | the handler as written echoes the form on every failure, and where it departs from `Signup.Handle` it answers the 500 of the `catch` |
| Signup.HandleAsWrittenDiffers | src/actions/index.ts:78-135 | the handler as written and the corrected one differ exactly for a forwarded submission whose reply is a 422 filing an error under an inherited property name |
| Signup.RejectionSkipsUpstream | src/actions/index.ts:14-39 | for a rejected submission the result is a failure that does not depend on the upstream service at all |
| Signup.HoneypotAnswers | src/actions/index.ts:15-24 | a `company` value that trims to non-empty answers 400 "Invalid submission." whatever the timestamp, clock or upstream |
| Signup.TimeTrapAnswers | src/actions/index.ts:27-39 | with no honeypot, a missing timestamp or a too-recent one answers 400 "Please try again." whatever the upstream |
| Signup.ForwardedSubmission | src/actions/index.ts:41-71 | a submission passing both checks sends the built contact, with status `subscribed`, and the reply alone decides the result |

## Left out

- `fetch`, the endpoint URL, the headers and `import.meta.env` (lines 3-4 and 59-71) are network I/O and configuration. The reply is an input (`Outcome`).
- The `console.*` calls are diagnostics and have no contract.
- `Date.now()` becomes the parameter `now`.
- `Number(...)` parsing becomes the parameter `parse`. A finite result is a `real`, so the model does not apply IEEE-754 rounding to the subtraction on line 30.
- Gate.Check: the sign of an infinite timestamp is not modelled. The action treats both signs the same.
- `childrenCount` is carried through as whatever `parse` returns. JSON serialisation of NaN and infinities is not modelled.
- The Astro `defineAction` wrapper and `FormData` are framework glue; the form is a `map<string, string>`. With repeated field names, `formData.get` sees the first value and `Object.fromEntries` the last. A map has one value per name, so this is not modelled. File uploads (non-string values) are not modelled either.
- Non-string JSON values in the reply (a numeric `detail`, a non-string `pointer`) are not modelled. `detail` and `pointer` are strings or absent.
- `Text.ToLower` lower-cases ASCII letters only. Against the six ASCII field names it decides matches exactly as `toLowerCase` does: the only other characters that lower-case to something ASCII are U+212A (to `k`, which no name contains) and U+0130 (to two characters, one of them non-ASCII).
- Response.Resolve and Signup.Handle model the corrected field-error accumulation, not the plain-object one on lines 78-87, because the latter throws on inherited property names (see "## Findings"). The code as written is modelled by `Response.ResolveAsWritten` and `Signup.HandleAsWritten`.
- The key order of the `fieldErrors` object is not modelled, because a Dafny `map` is unordered. The order of messages under each key is modelled.
- `eslint.config.js`, `prettier.config.mjs` and `scripts/snapshots.py` are tooling and browser automation. They are not part of this model.

## Findings

| source | as written | input that shows it | evidently intended | confidence | as-written member | corrected member |
|---|---|---|---|---|---|---|
| src/actions/index.ts:78-86 | `fieldErrors` is a plain `{}`. For a key such as `constructor` or `__proto__`, `fieldErrors[key]` is inherited and truthy, so the list is never created and `.push` throws a TypeError. The `catch` then answers 500 "Unexpected error". | a 422 reply with `errors: [{pointer: "/fields/constructor", detail: "is invalid"}]` | a 422 failure with `fieldErrors: {constructor: ["is invalid"]}` | medium, not executed; the upstream service reports pointers for fields it received, so such a pointer is unlikely in practice | FieldErrors.CollectAsWritten, used by Response.ResolveAsWritten and Signup.HandleAsWritten (exhibited by FieldErrors.ConstructorPointerCounterexample and Response.ConstructorFieldErrorCounterexample) | FieldErrors.Collect (proved by FieldErrors.CollectGroupsByField, used by Response.Resolve and Signup.Handle) |

=== FILE: field_errors.dfy ===
/**
 * The 422 branch's field-error accumulation (src/actions/index.ts): each
 * upstream validation error is filed, in order, under the form field its
 * pointer resolves to, or under `_global`.
 */
module FieldErrors {
  import opened Wrappers
  import opened Types
  import Pointer

  const GlobalKey: string := "_global"
  const FallbackMessage: string := "Unprocessable content."

  /**
   * One entry of the upstream body's `errors` array. An entry that is `null`
   * or not an object reads as having neither part.
   */
  datatype ApiError = ApiError(pointer: Option<string>, detail: Option<string>)

  /** The key an error is filed under: its resolved field, or `_global`. */
  function KeyOf(e: ApiError): (key: string)
    ensures e.pointer.None? ==> key == GlobalKey
    ensures Pointer.PointerToField(e.pointer).None? ==> key == GlobalKey
    ensures key != GlobalKey ==> Pointer.PointerToField(e.pointer) == Some(key)
    ensures Pointer.PointerToField(e.pointer).Some? ==> key == Pointer.PointerToField(e.pointer).value
  {
    Pointer.PointerToField(e.pointer).GetOr(GlobalKey)
  }

  /**
   * The message an error contributes: its own detail, else the body's
   * detail, else the generic fallback.
   */
  function MessageOf(e: ApiError, bodyDetail: Option<string>): (message: string)
    ensures e.detail.Some? ==> message == e.detail.value
    ensures e.detail.None? && bodyDetail.Some? ==> message == bodyDetail.value
    ensures e.detail.None? && bodyDetail.None? ==> message == FallbackMessage
  {
    e.detail.GetOr(bodyDetail.GetOr(FallbackMessage))
  }

  /** Appends `message` to the list under `key`, starting the list on first use. */
  function AddFieldError(m: FieldErrorMap, key: string, message: string): (m': FieldErrorMap)
    ensures m'.Keys == m.Keys + {key}
    ensures |m'[key]| == (if key in m then |m[key]| else 0) + 1
    ensures forall k :: k in m && k != key ==> m'[k] == m[k]
  {
    m[key := (if key in m then m[key] else []) + [message]]
  }

  /** Filing appends the message as the key's last one, after the messages it already held. */
  lemma AddFieldErrorAppends(m: FieldErrorMap, key: string, message: string)
    ensures var list := AddFieldError(m, key, message)[key];
            && |list| >= 1 && list[|list| - 1] == message
            && list[..|list| - 1] == (if key in m then m[key] else [])
  {
  }

  /** The loop over the body's error list: files every error, first to last. */
  function Collect(errors: seq<ApiError>, bodyDetail: Option<string>): (m: FieldErrorMap)
    ensures m.Keys == KeysOf(errors)
    ensures forall k :: k in m ==> |m[k]| > 0
  {
    if |errors| == 0 then map[]
    else
      var init, last := errors[..|errors| - 1], errors[|errors| - 1];
      KeysOfSnoc(init, last);
      assert init + [last] == errors;
      var prev := Collect(init, bodyDetail);
      AddFieldError(prev, KeyOf(last), MessageOf(last, bodyDetail))
  }

  /** The field errors of a 422 whose body has no `errors` array: one `_global` message. */
  function WithoutErrorList(bodyDetail: Option<string>): (m: FieldErrorMap)
    ensures m.Keys == {GlobalKey} && |m[GlobalKey]| == 1
    ensures bodyDetail.Some? ==> m[GlobalKey] == [bodyDetail.value]
    ensures bodyDetail.None? ==> m[GlobalKey] == [FallbackMessage]
  {
    AddFieldError(map[], GlobalKey, bodyDetail.GetOr(FallbackMessage))
  }

  // Reference definitions, independent of the accumulation order.

  /** The messages of the errors filed under `key`, in input order. */
  function MessagesUnder(errors: seq<ApiError>, bodyDetail: Option<string>, key: string): seq<string> {
    if |errors| == 0 then []
    else (if KeyOf(errors[0]) == key then [MessageOf(errors[0], bodyDetail)] else [])
         + MessagesUnder(errors[1..], bodyDetail, key)
  }

  /** The keys some error is filed under. */
  ghost function KeysOf(errors: seq<ApiError>): set<string> {
    set i | 0 <= i < |errors| :: KeyOf(errors[i])
  }

  /** The number of messages held under the keys in `keys`. */
  ghost function MessagesOver(m: FieldErrorMap, keys: set<string>): nat
    requires keys <= m.Keys
  {
    if keys == {} then 0
    else
      var k :| k in keys;
      |m[k]| + MessagesOver(m, keys - {k})
  }

  /** The number of messages held across all keys. */
  ghost function TotalMessages(m: FieldErrorMap): nat {
    MessagesOver(m, m.Keys)
  }

  /** Filtering a longer input appends the new error's message when it is filed under `key`. */
  lemma {:induction false} MessagesUnderSnoc(errors: seq<ApiError>, e: ApiError, bodyDetail: Option<string>, key: string)
    ensures MessagesUnder(errors + [e], bodyDetail, key)
            == MessagesUnder(errors, bodyDetail, key) + (if KeyOf(e) == key then [MessageOf(e, bodyDetail)] else [])
  {
    if |errors| > 0 {
      assert (errors + [e])[1..] == errors[1..] + [e];
      MessagesUnderSnoc(errors[1..], e, bodyDetail, key);
    }
  }

  /** A longer input adds the new error's key. */
  lemma KeysOfSnoc(init: seq<ApiError>, last: ApiError)
    ensures KeysOf(init + [last]) == KeysOf(init) + {KeyOf(last)}
  {
    var errors := init + [last];
    forall k | k in KeysOf(errors) ensures k in KeysOf(init) + {KeyOf(last)} {
      var i :| 0 <= i < |errors| && KeyOf(errors[i]) == k;
      if i < |init| { assert errors[i] == init[i]; }
    }
    assert KeyOf(errors[|init|]) == KeyOf(last);
    forall k | k in KeysOf(init) ensures k in KeysOf(errors) {
      var i :| 0 <= i < |init| && KeyOf(init[i]) == k;
      assert errors[i] == init[i];
    }
  }

  /** A key holds messages exactly when some error is filed under it. */
  lemma {:induction false} MessagesUnderNonEmpty(errors: seq<ApiError>, bodyDetail: Option<string>, key: string)
    ensures |MessagesUnder(errors, bodyDetail, key)| > 0 <==> key in KeysOf(errors)
  {
    if |errors| > 0 {
      MessagesUnderNonEmpty(errors[1..], bodyDetail, key);
      assert KeysOf(errors) == {KeyOf(errors[0])} + KeysOf(errors[1..]) by {
        forall k | k in KeysOf(errors) ensures k in {KeyOf(errors[0])} + KeysOf(errors[1..]) {
          var i :| 0 <= i < |errors| && KeyOf(errors[i]) == k;
          if i > 0 { assert KeyOf(errors[1..][i - 1]) == k; }
        }
        forall k | k in KeysOf(errors[1..]) ensures k in KeysOf(errors) {
          var i :| 0 <= i < |errors[1..]| && KeyOf(errors[1..][i]) == k;
          assert KeyOf(errors[i + 1]) == k;
        }
      }
    }
  }

  /**
   * The accumulation is a group-by: its keys are exactly the keys the errors
   * are filed under, and each key holds the messages of its errors, in input
   * order, never an empty list.
   */
  lemma {:induction false} CollectGroupsByField(errors: seq<ApiError>, bodyDetail: Option<string>)
    ensures Collect(errors, bodyDetail).Keys == KeysOf(errors)
    ensures forall k :: k in Collect(errors, bodyDetail) ==>
              Collect(errors, bodyDetail)[k] == MessagesUnder(errors, bodyDetail, k)
    ensures forall k :: k in Collect(errors, bodyDetail) ==> |Collect(errors, bodyDetail)[k]| > 0
  {
    if |errors| > 0 {
      var init, last := errors[..|errors| - 1], errors[|errors| - 1];
      assert errors == init + [last];
      CollectGroupsByField(init, bodyDetail);
      KeysOfSnoc(init, last);
      forall k | k in Collect(errors, bodyDetail)
        ensures Collect(errors, bodyDetail)[k] == MessagesUnder(errors, bodyDetail, k)
      {
        MessagesUnderSnoc(init, last, bodyDetail, k);
        if k !in Collect(init, bodyDetail) {
          MessagesUnderNonEmpty(init, bodyDetail, k);
        }
      }
    }
  }

  /** Every error contributes exactly one message: the messages across all keys number `|errors|`. */
  lemma {:induction false} CollectKeepsEveryMessage(errors: seq<ApiError>, bodyDetail: Option<string>)
    ensures TotalMessages(Collect(errors, bodyDetail)) == |errors|
  {
    if |errors| > 0 {
      var init, last := errors[..|errors| - 1], errors[|errors| - 1];
      CollectKeepsEveryMessage(init, bodyDetail);
      AddFieldErrorAddsOne(Collect(init, bodyDetail), KeyOf(last), MessageOf(last, bodyDetail));
    }
  }

  /** Filing one message raises the total by one. */
  lemma AddFieldErrorAddsOne(m: FieldErrorMap, key: string, message: string)
    ensures TotalMessages(AddFieldError(m, key, message)) == TotalMessages(m) + 1
  {
    var m' := AddFieldError(m, key, message);
    MessagesOverRemove(m', m'.Keys, key);
    MessagesOverAgree(m, m', m.Keys - {key});
    if key in m {
      MessagesOverRemove(m, m.Keys, key);
    } else {
      assert m.Keys - {key} == m.Keys;
    }
    assert m'.Keys - {key} == m.Keys - {key};
  }

  /** The count does not depend on which key is counted first. */
  lemma {:induction false} MessagesOverRemove(m: FieldErrorMap, keys: set<string>, key: string)
    requires keys <= m.Keys && key in keys
    ensures MessagesOver(m, keys) == |m[key]| + MessagesOver(m, keys - {key})
    decreases keys
  {
    var k :| k in keys && MessagesOver(m, keys) == |m[k]| + MessagesOver(m, keys - {k});
    if k != key {
      MessagesOverRemove(m, keys - {k}, key);
      MessagesOverRemove(m, keys - {key}, k);
      assert keys - {k} - {key} == keys - {key} - {k};
    }
  }

  /** Two maps that agree on `keys` hold as many messages under them. */
  lemma {:induction false} MessagesOverAgree(m: FieldErrorMap, m': FieldErrorMap, keys: set<string>)
    requires keys <= m.Keys && keys <= m'.Keys
    requires forall k :: k in keys ==> m[k] == m'[k]
    ensures MessagesOver(m, keys) == MessagesOver(m', keys)
    decreases keys
  {
    if keys != {} {
      var k :| k in keys && MessagesOver(m, keys) == |m[k]| + MessagesOver(m, keys - {k});
      MessagesOverRemove(m', keys, k);
      MessagesOverAgree(m, m', keys - {k});
    }
  }

  // The accumulation as written: `fieldErrors` is a plain object literal.

  /**
   * The property names a plain `{}` inherits from `Object.prototype`. Reading
   * one of them yields a truthy function (or, for `__proto__`, the prototype
   * itself), so `addFieldError` skips the initialisation and calls `.push` on
   * a value that has none, which throws a TypeError.
   */
  const ObjectPrototypeNames: set<string> := {
    "constructor", "hasOwnProperty", "isPrototypeOf", "propertyIsEnumerable",
    "toString", "toLocaleString", "valueOf", "__proto__",
    "__defineGetter__", "__defineSetter__", "__lookupGetter__", "__lookupSetter__"
  }

  /**
   * The loop as written: `None` when filing throws on an inherited key, which
   * can only be for an error whose key is an inherited name; a completed run
   * met no such key.
   */
  function CollectAsWritten(errors: seq<ApiError>, bodyDetail: Option<string>): (r: Option<FieldErrorMap>)
    ensures r.Some? ==> KeysOf(errors) !! ObjectPrototypeNames
    ensures r.None? ==> KeysOf(errors) * ObjectPrototypeNames != {}
  {
    if |errors| == 0 then Some(map[])
    else
      var init, last := errors[..|errors| - 1], errors[|errors| - 1];
      var key := KeyOf(last);
      KeysOfSnoc(init, last);
      assert init + [last] == errors;
      assert KeysOf(errors) == KeysOf(init) + {key};
      match CollectAsWritten(init, bodyDetail)
      case None => None
      case Some(m) =>
        if key in ObjectPrototypeNames then None
        else Some(AddFieldError(m, key, MessageOf(last, bodyDetail)))
  }

  /**
   * The loop as written throws exactly when some error is filed under an
   * inherited property name, and otherwise agrees with `Collect`.
   */
  lemma {:induction false} CollectAsWrittenThrowsOnInheritedKeys(errors: seq<ApiError>, bodyDetail: Option<string>)
    ensures CollectAsWritten(errors, bodyDetail).None? <==> KeysOf(errors) * ObjectPrototypeNames != {}
    ensures CollectAsWritten(errors, bodyDetail).Some? ==> CollectAsWritten(errors, bodyDetail).value == Collect(errors, bodyDetail)
  {
    if |errors| > 0 {
      var init, last := errors[..|errors| - 1], errors[|errors| - 1];
      assert errors == init + [last];
      CollectAsWrittenThrowsOnInheritedKeys(init, bodyDetail);
      KeysOfSnoc(init, last);
    } else {
      assert KeysOf(errors) == {};
    }
  }

  /** A single error on `/fields/constructor` makes the loop as written throw; `Collect` files it. */
  lemma ConstructorPointerCounterexample()
    ensures var errors := [ApiError(Some(Pointer.FieldsPrefix + "constructor"), Some("is invalid"))];
            && CollectAsWritten(errors, None).None?
            && Collect(errors, None) == map["constructor" := ["is invalid"]]
  {
    var e := ApiError(Some(Pointer.FieldsPrefix + "constructor"), Some("is invalid"));
    assert KeyOf(e) == "constructor" by {
      Pointer.ResolvesToSegment("constructor", "");
      assert Pointer.FieldsPrefix + "constructor" + "" == Pointer.FieldsPrefix + "constructor";
    }
    SingleError(e, None);
  }

  /** On one error, the loop as written throws exactly for an inherited key, and `Collect` files it alone. */
  lemma SingleError(e: ApiError, bodyDetail: Option<string>)
    ensures CollectAsWritten([e], bodyDetail).None? <==> KeyOf(e) in ObjectPrototypeNames
    ensures Collect([e], bodyDetail) == map[KeyOf(e) := [MessageOf(e, bodyDetail)]]
  {
    assert [e][..0] == [];
    assert Collect([e], bodyDetail) == AddFieldError(map[], KeyOf(e), MessageOf(e, bodyDetail));
    var msgs: seq<string> := [];
    assert msgs + [MessageOf(e, bodyDetail)] == [MessageOf(e, bodyDetail)];
  }
}

=== FILE: gate.dfy ===
/**
 * The anti-automation checks at the top of `privateBetaSignup`
 * (src/actions/index.ts): a honeypot field that people never fill, then a
 * minimum time between rendering and submitting the form.
 */
module Gate {
  import opened Wrappers
  import opened Text
  import opened Types

  const HoneypotField: string := "company"
  const RenderedAtField: string := "renderedAt"
  const BadRequest: int := 400
  const MinElapsedMs: real := 2000.0
  const InvalidSubmission: string := "Invalid submission."
  const TryAgain: string := "Please try again."

  /** The honeypot field was submitted and is more than whitespace. */
  predicate HoneypotTripped(form: Form) {
    HoneypotField in form && |Trim(form[HoneypotField])| > 0
  }

  /** The render timestamp as the action reads it: the parsed field when submitted, zero otherwise. */
  function RenderedAt(form: Form, parse: string -> JsNumber): (renderedAt: JsNumber)
    ensures RenderedAtField in form ==> renderedAt == parse(form[RenderedAtField])
    ensures RenderedAtField !in form ==> !IsTruthy(renderedAt) && renderedAt.Finite?
  {
    if RenderedAtField in form then parse(form[RenderedAtField]) else Finite(0.0)
  }

  /** The time since rendering, with a non-finite timestamp counted as 0. */
  function ElapsedMs(now: int, renderedAt: JsNumber): real {
    now as real - (if renderedAt.Finite? then renderedAt.value else 0.0)
  }

  /** The trap springs on a falsy timestamp or on less than two seconds elapsed. */
  predicate TimeTrapTripped(renderedAt: JsNumber, now: int) {
    !IsTruthy(renderedAt) || ElapsedMs(now, renderedAt) < MinElapsedMs
  }

  /**
   * The submissions the time trap rejects, case by case: a NaN or zero
   * timestamp; a finite one less than two seconds old; and an infinite one
   * (which counts as zero elapsed offset) while the clock reads under 2000.
   */
  predicate TooFast(renderedAt: JsNumber, now: int) {
    match renderedAt
    case NaN => true
    case Finite(t) => t == 0.0 || (now as real) - t < MinElapsedMs
    case Infinite => (now as real) < MinElapsedMs
  }

  /**
   * The two checks in order: `None` lets the submission through, `Some(r)` is
   * the failure handed back without contacting the upstream service.
   */
  function Check(form: Form, renderedAt: JsNumber, now: int): (rejection: Option<ActionResult>)
    ensures HoneypotField in form && HasVisibleChar(form[HoneypotField]) ==>
              rejection == Some(Failed(BadRequest, Some(InvalidSubmission), None, form))
    ensures !(HoneypotField in form && HasVisibleChar(form[HoneypotField])) && TooFast(renderedAt, now) ==>
              rejection == Some(Failed(BadRequest, Some(TryAgain), None, form))
    ensures rejection.None? <==>
              !(HoneypotField in form && HasVisibleChar(form[HoneypotField])) && !TooFast(renderedAt, now)
  {
    if HoneypotTripped(form) then Some(Failed(BadRequest, Some(InvalidSubmission), None, form))
    else if TimeTrapTripped(renderedAt, now) then Some(Failed(BadRequest, Some(TryAgain), None, form))
    else None
  }

  /** A form without `renderedAt` never passes: the timestamp reads as 0, which is falsy. */
  lemma MissingTimestampRejected(form: Form, parse: string -> JsNumber, now: int)
    requires RenderedAtField !in form
    ensures Check(form, RenderedAt(form, parse), now).Some?
  {
  }

  /**
   * A timestamp that parses to an infinity is not falsy and counts as 0 in the
   * elapsed time, so it passes whenever the clock reads at least 2000.
   */
  lemma InfiniteTimestampPasses(form: Form, now: int)
    requires !(HoneypotField in form && HasVisibleChar(form[HoneypotField]))
    ensures Check(form, Infinite, now).None? <==> (now as real) >= MinElapsedMs
  {
  }
}

=== FILE: payload.dfy ===
/**
 * The upstream contact request built from a submission that passed the
 * anti-automation checks (src/actions/index.ts).
 */
module Payload {
  import opened Wrappers
  import opened Types

  const PrivateBetaTag: string := "private-beta"
  const MobileTag: string := "mobile-interested"
  const Subscribed: string := "subscribed"
  const MobileInterestField: string := "mobileInterest"
  /** The value a checked checkbox submits. */
  const CheckboxOn: string := "on"

  /**
   * The contact's custom fields. A string field is `None` when the form did
   * not submit it (`JSON.stringify` then leaves it out); `childrenCount` is
   * the number `Number(...)` made of it.
   */
  datatype ContactFields = ContactFields(
    firstName: Option<string>,
    lastName: Option<string>,
    primaryDevice: Option<string>,
    childrenCount: JsNumber,
    maritalStatus: Option<string>,
    mobileInterest: string)

  /** The JSON body of the contact-creation request. */
  datatype Contact = Contact(emailAddress: Option<string>, fields: ContactFields, tags: seq<string>, status: string)

  /** `private-beta`, followed by `mobile-interested` when the interest field is submitted and non-empty. */
  function Tags(form: Form): (tags: seq<string>)
    ensures |tags| >= 1 && tags[0] == PrivateBetaTag
    ensures MobileTag in tags <==> FieldIsTruthy(form, MobileInterestField)
    ensures MobileTag in tags ==> tags == [PrivateBetaTag, MobileTag]
    ensures MobileTag !in tags ==> tags == [PrivateBetaTag]
  {
    [PrivateBetaTag] + (if FieldIsTruthy(form, MobileInterestField) then [MobileTag] else [])
  }

  /** `"Yes"` exactly when the checkbox value is `"on"`, `"No"` otherwise. */
  function MobileInterestAnswer(form: Form): (answer: string)
    ensures answer == "Yes" || answer == "No"
    ensures answer == "Yes" <==> Field(form, MobileInterestField) == Some(CheckboxOn)
  {
    if Field(form, MobileInterestField) == Some(CheckboxOn) then "Yes" else "No"
  }

  /** The children count as a number: the parsed field, or NaN when the field is missing. */
  function ChildrenCount(form: Form, parse: string -> JsNumber): (count: JsNumber)
    ensures "childrenCount" in form ==> count == parse(form["childrenCount"])
    ensures "childrenCount" !in form ==> count.NaN?
  {
    if "childrenCount" in form then parse(form["childrenCount"]) else NaN
  }

  /** The submission mapped into the upstream contact schema. */
  function BuildContact(form: Form, parse: string -> JsNumber): (c: Contact)
    ensures c.status == Subscribed
    ensures c.tags == Tags(form)
    // The next two follow from the line above and restate Tags's contract for callers.
    ensures |c.tags| >= 1 && c.tags[0] == PrivateBetaTag
    ensures MobileTag in c.tags <==> FieldIsTruthy(form, MobileInterestField)
    ensures c.fields.childrenCount == ChildrenCount(form, parse)
    ensures c.fields.mobileInterest == "Yes" <==> Field(form, MobileInterestField) == Some(CheckboxOn)
    ensures c.emailAddress == Field(form, "EmailAddress")
    ensures c.fields.firstName == Field(form, "FirstName") && c.fields.lastName == Field(form, "LastName")
    ensures c.fields.primaryDevice == Field(form, "primaryDevice")
    ensures c.fields.maritalStatus == Field(form, "maritalStatus")
  {
    Contact(
      Field(form, "EmailAddress"),
      ContactFields(
        Field(form, "FirstName"),
        Field(form, "LastName"),
        Field(form, "primaryDevice"),
        ChildrenCount(form, parse),
        Field(form, "maritalStatus"),
        MobileInterestAnswer(form)),
      Tags(form),
      Subscribed)
  }

  /**
   * For the two values a checkbox can submit (absent, or `"on"`), the tag and
   * the `mobileInterest` field say the same thing.
   */
  lemma CheckboxSignalsAgree(form: Form, parse: string -> JsNumber)
    requires Field(form, MobileInterestField) in {None, Some(CheckboxOn)}
    ensures var c := BuildContact(form, parse);
            MobileTag in c.tags <==> c.fields.mobileInterest == "Yes"
  {
  }

  /** Any other non-empty value earns the tag but answers `"No"`. */
  lemma OtherValuesDisagree(form: Form, parse: string -> JsNumber)
    requires MobileInterestField in form && form[MobileInterestField] !in {"", CheckboxOn}
    ensures var c := BuildContact(form, parse);
            MobileTag in c.tags && c.fields.mobileInterest == "No"
  {
  }
}

=== FILE: pointer.dfy ===
/**
 * `pointerToField` (src/actions/index.ts): resolves an upstream validation
 * error's pointer to the name of the submitted field it refers to.
 */
module Pointer {
  import opened Wrappers
  import opened Text

  const EmailPointer: string := "/email_address"
  const FieldsPrefix: string := "/fields/"

  /** The custom fields of the contact, in their canonical spelling. */
  const KnownFields: seq<string> :=
    ["FirstName", "LastName", "primaryDevice", "childrenCount", "maritalStatus", "mobileInterest"]

  /** Equality up to (ASCII) case. */
  predicate SameIgnoringCase(a: string, b: string) {
    ToLower(a) == ToLower(b)
  }

  /** The first of `names` equal to `raw` up to case, if any. */
  function FindIgnoringCase(names: seq<string>, raw: string): (found: Option<string>)
    ensures found.Some? ==> found.value in names && SameIgnoringCase(found.value, raw)
    ensures found.None? <==> forall i :: 0 <= i < |names| ==> !SameIgnoringCase(names[i], raw)
  {
    if |names| == 0 then None
    else if SameIgnoringCase(names[0], raw) then Some(names[0])
    else FindIgnoringCase(names[1..], raw)
  }

  /** The third `/`-separated piece of `pointer`, or "" when there is none. */
  function ThirdSegment(pointer: string): string {
    var parts := Split(pointer, '/');
    if |parts| > 2 then parts[2] else ""
  }

  /**
   * Maps an upstream error pointer to a form field name: `/email_address` to
   * `EmailAddress`; `/fields/<name>/...` to the known field equal to `<name>`
   * up to case, or `<name>` itself; every other pointer, and a missing or empty
   * one, to no field.
   */
  function PointerToField(pointer: Option<string>): (field: Option<string>)
    ensures field.Some? <==> pointer.Some? && (pointer.value == EmailPointer || FieldsPrefix <= pointer.value)
    ensures pointer == Some(EmailPointer) ==> field == Some("EmailAddress")
  {
    if pointer.None? || pointer.value == "" then None
    else if pointer.value == EmailPointer then Some("EmailAddress")
    else if FieldsPrefix <= pointer.value then
      var raw := ThirdSegment(pointer.value);
      Some(FindIgnoringCase(KnownFields, raw).GetOr(raw))
    else None
  }

  /** No two known fields are equal up to case, so a case-insensitive match picks exactly one. */
  lemma KnownFieldsDistinctIgnoringCase()
    ensures forall i, j :: 0 <= i < j < |KnownFields| ==> !SameIgnoringCase(KnownFields[i], KnownFields[j])
  {
    forall i, j | 0 <= i < j < |KnownFields|
      ensures !SameIgnoringCase(KnownFields[i], KnownFields[j])
    {
      var a, b := ToLower(KnownFields[i]), ToLower(KnownFields[j]);
      if |a| == |b| {
        // the names of equal length differ in their first letter
        assert a[0] != b[0];
      }
    }
  }

  /**
   * Every `/fields/` pointer, whatever its segment and whatever follows it,
   * resolves to a field: the canonical known name when the segment matches one
   * up to case, the segment unchanged otherwise.
   */
  lemma {:induction false} FieldsPointerResolves(segment: string, tail: string)
    requires '/' !in segment
    requires tail == [] || tail[0] == '/'
    ensures var field := PointerToField(Some(FieldsPrefix + segment + tail));
            && field.Some?
            && (forall k :: k in KnownFields && SameIgnoringCase(k, segment) ==> field.value == k)
            && ((forall k :: k in KnownFields ==> !SameIgnoringCase(k, segment)) ==> field.value == segment)
  {
    var p := FieldsPrefix + segment + tail;
    ThirdSegmentOfFieldsPointer(segment, tail);
    assert FieldsPrefix <= p;
    var found := FindIgnoringCase(KnownFields, segment);
    assert PointerToField(Some(p)) == Some(found.GetOr(segment));
    KnownFieldsDistinctIgnoringCase();
  }

  /** The third segment of a `/fields/` pointer is the text up to the next slash. */
  lemma ThirdSegmentOfFieldsPointer(segment: string, tail: string)
    requires '/' !in segment
    requires tail == [] || tail[0] == '/'
    ensures ThirdSegment(FieldsPrefix + segment + tail) == segment
  {
    var p := FieldsPrefix + segment + tail;
    assert p == "" + ['/'] + ("fields" + ['/'] + (segment + tail));
    SplitAfter("", '/', "fields" + ['/'] + (segment + tail));
    SplitAfter("fields", '/', segment + tail);
    SplitHead(segment, '/', tail);
  }

  /** Every `/fields/` pointer splits into its segment and a tail that is empty or starts a new segment. */
  lemma FieldsPointerShape(pointer: string) returns (segment: string, tail: string)
    requires FieldsPrefix <= pointer
    ensures pointer == FieldsPrefix + segment + tail
    ensures '/' !in segment
    ensures tail == [] || tail[0] == '/'
  {
    var rest := pointer[|FieldsPrefix|..];
    var parts := Split(rest, '/');
    segment := parts[0];
    assert rest == Join(parts, '/');
    tail := rest[|segment|..];
    assert rest == segment + tail;
    assert pointer == FieldsPrefix + rest;
  }

  /** Missing, empty and unrecognised pointers resolve to no field; `/email_address` to `EmailAddress`. */
  lemma NonFieldPointerExamples()
    ensures PointerToField(None) == None
    ensures PointerToField(Some("")) == None
    ensures PointerToField(Some("/email_address")) == Some("EmailAddress")
    ensures PointerToField(Some("/tags/0")) == None
  {
  }

  /** Resolution to a known field, on a pointer given as prefix, segment and tail. */
  lemma ResolvesToKnown(segment: string, tail: string, k: string)
    requires '/' !in segment
    requires tail == [] || tail[0] == '/'
    requires k in KnownFields && SameIgnoringCase(k, segment)
    ensures PointerToField(Some(FieldsPrefix + segment + tail)) == Some(k)
  {
    FieldsPointerResolves(segment, tail);
  }

  /** Resolution to the segment itself, when it matches no known field. */
  lemma ResolvesToSegment(segment: string, tail: string)
    requires '/' !in segment
    requires tail == [] || tail[0] == '/'
    requires forall k :: k in KnownFields ==> |k| != |segment|
    ensures PointerToField(Some(FieldsPrefix + segment + tail)) == Some(segment)
  {
    FieldsPointerResolves(segment, tail);
    assert forall k :: k in KnownFields ==> |ToLower(k)| != |ToLower(segment)|;
  }

  /** A known name resolves to itself, whatever follows it. */
  lemma KnownFieldPointerExamples()
    ensures PointerToField(Some(FieldsPrefix + "childrenCount")) == Some("childrenCount")
    ensures PointerToField(Some(FieldsPrefix + "FirstName" + "/x")) == Some("FirstName")
  {
    ResolvesToKnown("childrenCount", "", "childrenCount");
    assert FieldsPrefix + "childrenCount" + "" == FieldsPrefix + "childrenCount";
    ResolvesToKnown("FirstName", "/x", "FirstName");
  }

  /** A known name written in another case resolves to its canonical spelling. */
  lemma CaseInsensitivePointerExample()
    ensures PointerToField(Some(FieldsPrefix + "firstname")) == Some("FirstName")
  {
    assert SameIgnoringCase("FirstName", "firstname");
    ResolvesToKnown("firstname", "", "FirstName");
    assert FieldsPrefix + "firstname" + "" == FieldsPrefix + "firstname";
  }

  /** An unknown segment is passed through verbatim, including the empty segment of a bare `/fields/`. */
  lemma UnknownFieldPointerExamples()
    ensures PointerToField(Some(FieldsPrefix + "unknownField")) == Some("unknownField")
    ensures PointerToField(Some(FieldsPrefix)) == Some("")
  {
    ResolvesToSegment("unknownField", "");
    assert FieldsPrefix + "unknownField" + "" == FieldsPrefix + "unknownField";
    ResolvesToSegment("", "");
    assert FieldsPrefix + "" + "" == FieldsPrefix;
  }
}

=== FILE: response.dfy ===
/**
 * The translation of the upstream reply into the action's result
 * (src/actions/index.ts): the `switch` on the status code and the `catch`.
 */
module Response {
  import opened Wrappers
  import opened Types
  import opened FieldErrors
  import Pointer

  const Created: int := 201
  const Conflict: int := 409
  const Unprocessable: int := 422
  const InternalError: int := 500
  const UnexpectedMessage: string := "Unexpected error. Please try again later."

  /**
   * The parsed JSON body. `NullBody` is the JSON `null`, on which reading a
   * property throws; any other value reads as an object whose `detail` is a
   * string or absent and whose `errors` is an array or not.
   */
  datatype Body = NullBody | Obj(detail: Option<string>, errors: Option<seq<ApiError>>)

  /** What the `try` block got: an exception from `fetch` or `response.json()`, or a status and body. */
  datatype Outcome = Threw | Responded(status: int, body: Body)

  /** The failure of the `catch` block. */
  function Unexpected(form: Form): ActionResult {
    Failed(InternalError, Some(UnexpectedMessage), None, form)
  }

  /** The field errors of a 422 reply with an object body. */
  function FieldErrorsOf(detail: Option<string>, errors: Option<seq<ApiError>>): FieldErrorMap {
    match errors
    case Some(errs) => Collect(errs, detail)
    case None => WithoutErrorList(detail)
  }

  /** The result for an upstream outcome; every failure echoes the submitted form. */
  function Resolve(form: Form, outcome: Outcome): (r: ActionResult)
    ensures r.Succeeded? <==> outcome.Responded? && outcome.status in {Created, Conflict}
    ensures r.Failed? ==> r.values == form
    ensures outcome.Threw? ==> r == Unexpected(form)
    ensures outcome.Responded? && outcome.status !in {Created, Conflict} && outcome.body.NullBody? ==>
              r == Unexpected(form)
    ensures outcome.Responded? && outcome.status !in {Created, Conflict, Unprocessable} && outcome.body.Obj? ==>
              r == Failed(outcome.status, outcome.body.detail, None, form)
    ensures outcome.Responded? && outcome.status == Unprocessable && outcome.body.Obj? ==>
              && r.Failed? && r.status == Unprocessable && r.message == outcome.body.detail
              && r.fieldErrors == Some(FieldErrorsOf(outcome.body.detail, outcome.body.errors))
    ensures r.Failed? && r.fieldErrors.Some? ==> r.status == Unprocessable
  {
    match outcome
    case Threw => Unexpected(form)
    case Responded(status, body) =>
      if status == Created || status == Conflict then Succeeded
      else if body.NullBody? then Unexpected(form)
      else if status == Unprocessable then
        Failed(Unprocessable, body.detail, Some(FieldErrorsOf(body.detail, body.errors)), form)
      else Failed(status, body.detail, None, form)
  }

  /**
   * A 422 reply's field errors: with an `errors` array, every error is filed
   * once, under its field, in order; without one, a single `_global` message.
   */
  lemma UnprocessableFieldErrors(form: Form, detail: Option<string>, errors: Option<seq<ApiError>>)
    ensures var r := Resolve(form, Responded(Unprocessable, Obj(detail, errors)));
            && r.Failed? && r.fieldErrors.Some?
            && (errors.Some? ==>
                  && r.fieldErrors.value.Keys == KeysOf(errors.value)
                  && TotalMessages(r.fieldErrors.value) == |errors.value|
                  && forall k :: k in r.fieldErrors.value ==>
                       r.fieldErrors.value[k] == MessagesUnder(errors.value, detail, k) && |r.fieldErrors.value[k]| > 0)
            && (errors.None? ==> r.fieldErrors.value == map[GlobalKey := [detail.GetOr(FallbackMessage)]])
  {
    if errors.Some? {
      CollectGroupsByField(errors.value, detail);
      CollectKeepsEveryMessage(errors.value, detail);
    }
  }

  /**
   * The `switch` as written: with a plain-object `fieldErrors`, a 422 whose
   * errors file a message under an inherited property name throws inside the
   * `try`, and the `catch` answers 500.
   */
  function ResolveAsWritten(form: Form, outcome: Outcome): (r: ActionResult)
    ensures r.Failed? ==> r.values == form
    ensures r != Resolve(form, outcome) ==> r == Unexpected(form) && outcome.Responded? && outcome.status == Unprocessable
  {
    match outcome
    case Responded(422, Obj(detail, Some(errs))) =>
      if CollectAsWritten(errs, detail).None? then Unexpected(form) else Resolve(form, outcome)
    case _ => Resolve(form, outcome)
  }

  /**
   * The two mappings differ exactly on 422 replies that file an error under
   * an inherited property name.
   */
  lemma ResolveAsWrittenDiffers(form: Form, outcome: Outcome)
    ensures ResolveAsWritten(form, outcome) != Resolve(form, outcome) <==>
              && outcome.Responded? && outcome.status == Unprocessable
              && outcome.body.Obj? && outcome.body.errors.Some?
              && KeysOf(outcome.body.errors.value) * ObjectPrototypeNames != {}
  {
    if outcome.Responded? && outcome.status == Unprocessable && outcome.body.Obj? && outcome.body.errors.Some? {
      CollectAsWrittenThrowsOnInheritedKeys(outcome.body.errors.value, outcome.body.detail);
    }
  }

  /** A 422 reporting an error on `/fields/constructor`: 500 as written, a filed field error once corrected. */
  lemma ConstructorFieldErrorCounterexample(form: Form)
    ensures var errors := [ApiError(Some(Pointer.FieldsPrefix + "constructor"), Some("is invalid"))];
            var outcome := Responded(Unprocessable, Obj(None, Some(errors)));
            && ResolveAsWritten(form, outcome) == Unexpected(form)
            && Resolve(form, outcome) == Failed(Unprocessable, None, Some(map["constructor" := ["is invalid"]]), form)
  {
    ConstructorPointerCounterexample();
  }
}

=== FILE: signup.dfy ===
/**
 * The `privateBetaSignup` action handler (src/actions/index.ts), with its
 * collaborators made explicit: `parse` stands for `Number(...)`, `now` for
 * `Date.now()`, and `upstream` for the contact-creation request together with
 * `response.json()`.
 */
module Signup {
  import opened Wrappers
  import opened Text
  import opened Types
  import Gate
  import Payload
  import Response
  import FieldErrors

  /** How far a submission gets before the network: turned away, or a request to send. */
  datatype Stage = Rejected(result: ActionResult) | Forward(contact: Payload.Contact)

  /** The handler up to the `try` block: the two checks, then the contact request. */
  function Screen(form: Form, parse: string -> JsNumber, now: int): (stage: Stage)
    ensures stage.Rejected? ==>
              && stage.result.Failed? && stage.result.status == Gate.BadRequest
              && stage.result.fieldErrors.None? && stage.result.values == form
    ensures stage.Forward? <==>
              && !(Gate.HoneypotField in form && HasVisibleChar(form[Gate.HoneypotField]))
              && !Gate.TooFast(Gate.RenderedAt(form, parse), now)
    ensures stage.Forward? ==> stage.contact == Payload.BuildContact(form, parse)
  {
    match Gate.Check(form, Gate.RenderedAt(form, parse), now)
    case Some(rejection) => Rejected(rejection)
    case None => Forward(Payload.BuildContact(form, parse))
  }

  /** The whole action: screen the submission, send it, translate the reply. */
  function Handle(form: Form, parse: string -> JsNumber, now: int, upstream: Payload.Contact -> Response.Outcome): (r: ActionResult)
    ensures r.Failed? ==> r.values == form
    ensures r.Succeeded? ==>
              && Screen(form, parse, now).Forward?
              && var outcome := upstream(Screen(form, parse, now).contact);
                 outcome.Responded? && outcome.status in {Response.Created, Response.Conflict}
  {
    match Screen(form, parse, now)
    case Rejected(result) => result
    case Forward(contact) => Response.Resolve(form, upstream(contact))
  }

  /**
   * A submission turned away by the checks never reaches the upstream
   * service: the result is the same whatever the service would have answered.
   */
  lemma RejectionSkipsUpstream(form: Form, parse: string -> JsNumber, now: int,
                               upstream1: Payload.Contact -> Response.Outcome,
                               upstream2: Payload.Contact -> Response.Outcome)
    requires Screen(form, parse, now).Rejected?
    ensures Handle(form, parse, now, upstream1) == Handle(form, parse, now, upstream2)
    ensures Handle(form, parse, now, upstream1).Failed?
  {
  }

  /**
   * A filled honeypot answers "Invalid submission." whatever the timestamp,
   * the clock and the upstream service.
   */
  lemma HoneypotAnswers(form: Form, parse: string -> JsNumber, now: int, upstream: Payload.Contact -> Response.Outcome)
    requires Gate.HoneypotField in form && |Trim(form[Gate.HoneypotField])| > 0
    ensures Handle(form, parse, now, upstream)
            == Failed(Gate.BadRequest, Some(Gate.InvalidSubmission), None, form)
  {
  }

  /** A submission without a timestamp, or with one too recent, answers "Please try again.". */
  lemma TimeTrapAnswers(form: Form, parse: string -> JsNumber, now: int, upstream: Payload.Contact -> Response.Outcome)
    requires !(Gate.HoneypotField in form && HasVisibleChar(form[Gate.HoneypotField]))
    requires Gate.RenderedAtField !in form
             || Gate.TooFast(parse(form[Gate.RenderedAtField]), now)
    ensures Handle(form, parse, now, upstream)
            == Failed(Gate.BadRequest, Some(Gate.TryAgain), None, form)
  {
  }

  /**
   * A submission that passes both checks is sent as the contact built from
   * the form, and the reply alone decides the result.
   */
  lemma ForwardedSubmission(form: Form, parse: string -> JsNumber, now: int, upstream: Payload.Contact -> Response.Outcome)
    requires !(Gate.HoneypotField in form && HasVisibleChar(form[Gate.HoneypotField]))
    requires !Gate.TooFast(Gate.RenderedAt(form, parse), now)
    ensures var contact := Payload.BuildContact(form, parse);
            && contact.status == Payload.Subscribed
            && Handle(form, parse, now, upstream) == Response.Resolve(form, upstream(contact))
  {
  }

  /**
   * The handler as written, whose 422 branch files field errors into a plain
   * object and so throws on inherited property names.
   */
  function HandleAsWritten(form: Form, parse: string -> JsNumber, now: int, upstream: Payload.Contact -> Response.Outcome): (r: ActionResult)
    ensures r.Failed? ==> r.values == form
    ensures r != Handle(form, parse, now, upstream) ==> r == Response.Unexpected(form)
  {
    match Screen(form, parse, now)
    case Rejected(result) => result
    case Forward(contact) => Response.ResolveAsWritten(form, upstream(contact))
  }

  /**
   * The handler as written and the corrected one differ exactly for a
   * forwarded submission whose reply is a 422 filing an error under an
   * inherited property name; there the one as written answers 500.
   */
  lemma HandleAsWrittenDiffers(form: Form, parse: string -> JsNumber, now: int, upstream: Payload.Contact -> Response.Outcome)
    ensures HandleAsWritten(form, parse, now, upstream) != Handle(form, parse, now, upstream) <==>
              && Screen(form, parse, now).Forward?
              && var outcome := upstream(Screen(form, parse, now).contact);
                 && outcome.Responded? && outcome.status == Response.Unprocessable
                 && outcome.body.Obj? && outcome.body.errors.Some?
                 && FieldErrors.KeysOf(outcome.body.errors.value) * FieldErrors.ObjectPrototypeNames != {}
  {
    var stage := Screen(form, parse, now);
    if stage.Forward? {
      Response.ResolveAsWrittenDiffers(form, upstream(stage.contact));
    }
  }
}

=== FILE: text.dfy ===
/**
 * The string primitives the signup action relies on: `trim`, `toLowerCase`,
 * `startsWith` (Dafny's prefix relation `<=`) and `split` on one character.
 */
module Text {

  /** ECMAScript WhiteSpace and LineTerminator code points: what `String.prototype.trim` strips. */
  predicate IsTrimmable(c: char) {
    || c == '\t' || c == '\n' || c == '\U{0B}' || c == '\U{0C}' || c == '\r' || c == ' '
    || c == '\U{A0}' || c == '\U{1680}' || ('\U{2000}' <= c <= '\U{200A}')
    || c == '\U{2028}' || c == '\U{2029}' || c == '\U{202F}' || c == '\U{205F}'
    || c == '\U{3000}' || c == '\U{FEFF}'
  }

  /** `s` holds a character that trimming keeps. */
  predicate HasVisibleChar(s: string) {
    exists i :: 0 <= i < |s| && !IsTrimmable(s[i])
  }

  /** The number of trimmable characters `s` starts with. */
  function LeadingTrimmable(s: string): (n: nat)
    ensures n <= |s|
    ensures forall i :: 0 <= i < n ==> IsTrimmable(s[i])
    ensures n < |s| ==> !IsTrimmable(s[n])
  {
    if |s| > 0 && IsTrimmable(s[0]) then 1 + LeadingTrimmable(s[1..]) else 0
  }

  /** Where the trailing run of trimmable characters of `s` begins. */
  function TrailingTrimmable(s: string): (n: nat)
    ensures n <= |s|
    ensures forall i :: n <= i < |s| ==> IsTrimmable(s[i])
    ensures n > 0 ==> !IsTrimmable(s[n - 1])
  {
    if |s| > 0 && IsTrimmable(s[|s| - 1]) then TrailingTrimmable(s[..|s| - 1]) else |s|
  }

  /**
   * `String.prototype.trim`: the slice of `s` between its leading and trailing
   * whitespace, which is empty exactly when `s` is all whitespace.
   */
  function Trim(s: string): (r: string)
    ensures |r| > 0 <==> HasVisibleChar(s)
    ensures |r| > 0 ==>
              && LeadingTrimmable(s) < TrailingTrimmable(s)
              && r == s[LeadingTrimmable(s)..TrailingTrimmable(s)]
              && !IsTrimmable(r[0]) && !IsTrimmable(r[|r| - 1])
  {
    var a, b := LeadingTrimmable(s), TrailingTrimmable(s);
    assert a < |s| ==> a < b;
    if a < b then s[a..b] else ""
  }

  /** ASCII lower-casing of one character. */
  function LowerChar(c: char): char {
    if 'A' <= c <= 'Z' then (c as int + 32) as char else c
  }

  /**
   * `toLowerCase`, on ASCII letters only. For the comparisons this model makes
   * (against six ASCII field names without a 'k') it decides equality exactly
   * as the full Unicode mapping does.
   */
  function ToLower(s: string): (r: string)
    ensures |r| == |s|
    ensures forall i :: 0 <= i < |s| && 'A' <= s[i] <= 'Z' ==> r[i] as int == s[i] as int + 32
    ensures forall i :: 0 <= i < |s| && !('A' <= s[i] <= 'Z') ==> r[i] == s[i]
    ensures forall i :: 0 <= i < |r| ==> !('A' <= r[i] <= 'Z')
  {
    seq(|s|, i requires 0 <= i < |s| => LowerChar(s[i]))
  }

  /** Lower-casing twice is lower-casing once. */
  lemma ToLowerIdempotent(s: string)
    ensures ToLower(ToLower(s)) == ToLower(s)
  {
  }

  /** `s.split(sep)` for a one-character separator: the pieces between separators, in order. */
  function Split(s: string, sep: char): (parts: seq<string>)
    ensures |parts| >= 1
    ensures forall i :: 0 <= i < |parts| ==> sep !in parts[i]
    ensures Join(parts, sep) == s
  {
    if |s| == 0 then [""]
    else
      var rest := Split(s[1..], sep);
      if s[0] == sep then [""] + rest
      else
        assert s == [s[0]] + Join(rest, sep);
        JoinFirst(rest, sep, [s[0]]);
        [[s[0]] + rest[0]] + rest[1..]
  }

  /** `parts.join(sep)`. */
  function Join(parts: seq<string>, sep: char): string
    requires |parts| >= 1
  {
    if |parts| == 1 then parts[0] else parts[0] + [sep] + Join(parts[1..], sep)
  }

  /** Prepending to the first piece prepends to the joined string. */
  lemma JoinFirst(parts: seq<string>, sep: char, pre: string)
    requires |parts| >= 1
    ensures Join([pre + parts[0]] + parts[1..], sep) == pre + Join(parts, sep)
  {
  }

  /** Splitting right after a separator-free piece yields that piece first. */
  lemma {:induction false} SplitAfter(a: string, sep: char, b: string)
    requires sep !in a
    ensures Split(a + [sep] + b, sep) == [a] + Split(b, sep)
  {
    if |a| == 0 {
      assert a + [sep] + b == [sep] + b;
      assert ([sep] + b)[1..] == b;
    } else {
      var s := a + [sep] + b;
      assert s[0] == a[0] && s[0] != sep;
      assert s[1..] == a[1..] + [sep] + b;
      SplitAfter(a[1..], sep, b);
      assert [a[0]] + a[1..] == a;
    }
  }

  /** Split undoes Join whenever no piece holds the separator. */
  lemma {:induction false} SplitJoin(parts: seq<string>, sep: char)
    requires |parts| >= 1
    requires forall i :: 0 <= i < |parts| ==> sep !in parts[i]
    ensures Split(Join(parts, sep), sep) == parts
  {
    if |parts| == 1 {
      SplitOfSeparatorFree(parts[0], sep);
    } else {
      SplitJoin(parts[1..], sep);
      SplitAfter(parts[0], sep, Join(parts[1..], sep));
      assert [parts[0]] + parts[1..] == parts;
    }
  }

  /** A string without the separator splits into itself alone. */
  lemma SplitOfSeparatorFree(s: string, sep: char)
    requires sep !in s
    ensures Split(s, sep) == [s]
  {
  }

  /**
   * The first piece of a split is the longest separator-free prefix, followed
   * either by the end of the string or by a separator.
   */
  lemma {:induction false} SplitHead(s: string, sep: char, tail: string)
    requires sep !in s
    requires tail == [] || tail[0] == sep
    ensures Split(s + tail, sep)[0] == s
  {
    if tail == [] {
      assert s + tail == s;
      SplitOfSeparatorFree(s, sep);
    } else {
      assert s + tail == s + [sep] + tail[1..];
      SplitAfter(s, sep, tail[1..]);
    }
  }
}

=== FILE: types.dfy ===
/** The values the signup action consumes and returns. */
module Types {
  import opened Wrappers

  /** The submitted fields as a name-to-value map; for a repeated name the last value wins. */
  type Form = map<string, string>

  /** Field name to the messages reported for it, in report order. */
  type FieldErrorMap = map<string, seq<string>>

  /**
   * A JavaScript number as `Number(...)` produces it: NaN, a finite value, or
   * an infinity of either sign (the action never tells the signs apart).
   */
  datatype JsNumber = NaN | Finite(value: real) | Infinite

  /** JavaScript truthiness of a number: false exactly for NaN and zero. */
  predicate IsTruthy(n: JsNumber) {
    !(n.NaN? || n == Finite(0.0))
  }

  /** The form field `name`, or `undefined` when it was not submitted. */
  function Field(form: Form, name: string): Option<string> {
    if name in form then Some(form[name]) else None
  }

  /** JavaScript truthiness of `data[name]`: submitted and not the empty string. */
  predicate FieldIsTruthy(form: Form, name: string) {
    name in form && form[name] != ""
  }

  /**
   * What the action hands back to the page: `{success: true}`, or a failure
   * with a status, a message (`undefined` when the upstream body had no
   * `detail`), field errors on a 422, and the submitted values echoed back.
   */
  datatype ActionResult =
    | Succeeded
    | Failed(status: int, message: Option<string>, fieldErrors: Option<FieldErrorMap>, values: Form)
}

=== FILE: wrappers.dfy ===
/** Optional values, standing for JavaScript's `null` / `undefined`. */
module Wrappers {

  datatype Option<+T> = None | Some(value: T) {

    /** The value, or `default` when absent: JavaScript's `x ?? default`. */
    function GetOr(default: T): T {
      match this
      case Some(v) => v
      case None => default
    }
  }
}
